=== FILE: README.md ===
# Recursive midpoint subdivision, modelled in Dafny

The program fills a two-dimensional buffer with cloud-like noise, in the
manner of the IMSMap screensaver. A call takes a view of the buffer and
writes the cell at the view's midpoint: the mean of the four corners plus a
random offset. It then calls itself on four overlapping cuts of the view.
The cuts share the midpoint row and column, and every view aliases the one
buffer. There are three tries:

- `f1` has no recursion guard and stops when both sides are at most 2.
- `f2` skips an empty cut or the view itself, and stops when both sides are at most 1.
- `f3` has the same guard as `f2` and stops like `f1`. Before the centre it
  also writes the four edge midpoints, each the mean of the two corners of
  its edge plus a raw uniform draw.

The model has one engine for all three tries (`Subdivision.Divide` and its
loop `Subdivision.Visit`), parameterised by a `Variant`. The pieces are:

- A view is an absolute rectangle of the buffer (`Grids.Region`), so a
  numpy slice is a translation (`Region.Slice`).
- Randomness is a stream of uniform draws (`Offsets.Stream`) with a
  position. The `randfunc` argument is a `Distribution`: either
  `random.random` or `random.random() - 0.5`.
- A call returns a `Run`: the new buffer, the position of the next unused
  draw, and the ordered list of cells it wrote.
- `Subdivision.Subdivide` is a call on a whole buffer. Its result is
  `IndexError` when numpy would raise one reading `img[0, 0]` of an empty
  buffer.

Modules:

- `Grids`: buffer, cells, views, frames.
- `Offsets`: the two distributions, the stream, and agreement of streams on a window.
- `Quadrants`: midpoints, the four cuts, and the guard.
- `Subdivision`: the engine.
- `FirstTry`, `SecondTry`, `ThirdTry`: what each try does.
- `Replay`: results depend only on the draws consumed.

## Behaviour worth knowing

- The docstring of `f2` (recursive_division.py:51-52) hedges that all
  pixels are computed "except, maybe?, the corner pixels". Three corners of
  the buffer are indeed never computed, but the bottom-right one is. On
  any 2 x 2 view, `f2`'s centre is the bottom-right corner. The cuts at
  bottom and right have that same cell as their centre, so it is written
  three times (`SecondTry.TwoByTwo`). On every buffer of at least 2 x 2
  the bottom-right corner is therefore computed, while row 0 and column 0
  never are (`SecondTry.EdgesAndCorners`).
- `f1` keeps all four corners of the buffer (`FirstTry.CornersKept`), and
  `f2` does not keep the bottom-right one (above). `f3` overwrites the two
  right-hand corners of every view two columns wide and at least three
  rows high that it meets (`ThirdTry.NarrowNode`). On a 2 x 2 view it
  returns at once and writes nothing.
- `f1` always terminates, even though it has no guard. Its docstring
  (recursive_division.py:27-29) says it stops the recursion early. A call
  that does not return at once has a side of 3 or more. Every cut
  shortens such a side and lengthens neither, so no call ever receives
  its caller's own view (`FirstTry.CallsShrink`).
- `f3`'s edge midpoints use `random.random()` directly, not `randfunc()`
  (recursive_division.py:112-116). With the centred distribution they are
  not recentred; only the centre is.
- On a view two columns wide and at least three rows high, `f3`'s "edge
  midpoints" include the two right-hand corners, which it overwrites.
  Later writes then read the overwritten corners (`ThirdTry.NarrowNode`).

## Model

| member | source | states |
|---|---|---|
| Quadrants.MidRow | recursive_division.py:64-67 | the midpoint index is Python 2 integer halving of the side: twice it is the side or one less |
| Quadrants.MidCol | recursive_division.py:105-106 | the midpoint column is Python 2 integer halving of the width: twice it is the width or one less |
| Quadrants.Cuts | recursive_division.py:120-125 | there are four cuts, each within the view's bounds and each holding the midpoint row and the midpoint column |
| Quadrants.Admit | recursive_division.py:128-132 | a cut that passes the guard selects a non-empty view other than the caller's own |
| Quadrants.CutGeometry | recursive_division.py:71-76 | the four cuts are non-empty, together cover the view, hold its TL, BL, TR, BR corners in visiting order, and each cut shares exactly its stretch of the midpoint row with the cut below it and exactly its stretch of the midpoint column with the cut to its right, for all four neighbouring pairs |
| Quadrants.CutShrinks | recursive_division.py:40-43 | no cut is larger than its view, and a side of 3 or more strictly shrinks |
| Quadrants.AdmitIffProper | recursive_division.py:79-83 | the guard admits a cut exactly when its view differs from the whole view, and then the cut is strictly smaller |
| Quadrants.CutStep | recursive_division.py:77-84 | every cut view is non-empty, and it is strictly smaller when a side is at least 3 or the guard admits it |
| Grids.Grid.Set | recursive_division.py:39 | an assignment `img[r, c] = v` changes that one cell to `v`, keeps the shape, and leaves every other cell as it was |
| Grids.Region.Slice | recursive_division.py:84 | the view `img[x0:x1, y0:y1]` has shape `(x1-x0, y1-y0)` and every cell of it is a cell of the parent view |
| Grids.FrameCompose | recursive_division.py:112-118 | two successive assignments leave every cell that neither lists as it was |
| Grids.SliceTranslates | recursive_division.py:84 | local index (i, j) of `img[x0:x1, y0:y1]` is local index (x0+i, y0+j) of the parent, inside the parent |
| Grids.Whole | recursive_division.py:23 | the view handed to a try covers exactly the cells of the buffer |
| Offsets.Offset | recursive_division.py:146-156 | for a draw in [0, 1), either `randfunc` yields a displacement in [-0.5, 1) |
| Offsets.OffsetRange | recursive_division.py:149-151 | for a draw in [0, 1), `random.random` gives [0, 1) and the centred function gives [-0.5, 0.5), exactly one half lower |
| Subdivision.BaseLimit | recursive_division.py:34-101 | the limit in the early returns at :34, :62 and :101 is 1 or 2, and it is 1 for `f2` only, which alone recurses down to single cells |
| Subdivision.BaseIffCorners | recursive_division.py:34-101 | the early return of `f1` and `f3` happens exactly when every cell of the view is a corner, and that of `f2` exactly on a single cell |
| Subdivision.Descends | recursive_division.py:77-84 | `f1` descends into every cut, and `f2`/`f3` only into a non-empty view other than the caller's |
| Subdivision.MeansInRange | recursive_division.py:112-118 | the four-corner mean lies between the least and the greatest corner, and an edge's pair mean between its two cells |
| Subdivision.CentreStep | recursive_division.py:118 | the centre becomes the mean of the four corners as they stand plus the offset of one draw; nothing else changes |
| Subdivision.EdgeStep | recursive_division.py:112 | one edge assignment changes only its cell, which becomes the mean of the two corners as they stand plus the raw draw |
| Subdivision.EdgeMidpoints | recursive_division.py:112-116 | the edge writes touch exactly top, bottom, left and right midpoints in that order, inside the view, and take four draws |
| Subdivision.Node | recursive_division.py:112-118 | a node's writes stay in the view, end with the centre, take one draw each, and touch no other cell |
| Subdivision.Divide | recursive_division.py:23-133 | a call writes only inside its view, leaves every unlisted cell unchanged, and takes exactly one draw per write |
| Subdivision.Visit | recursive_division.py:77-84 | the loop over the remaining cuts keeps the same frame, containment and draw accounting |
| Subdivision.Subdivide | recursive_division.py:62-69 | a whole-buffer call fails with `IndexError` exactly when it is not a base case and the buffer is empty; a base case changes nothing |
| Subdivision.IdleCut | recursive_division.py:77-84 | a cut that is not descended into, or that returns at once, contributes nothing to the loop |
| Subdivision.ThreeByThreeCuts | recursive_division.py:120-125 | every cut of a 3 x 3 view is small enough for `f1` and `f3` to return at once |
| Subdivision.ThreeByThreeLoopIdle | recursive_division.py:126-133 | on a 3 x 3 view the recursive calls of `f1` and `f3` write nothing |
| Subdivision.ThreeByThreeLeaf | recursive_division.py:34-43 | on a 3 x 3 view `f1` and `f3` make their own assignments and nothing more |
| Subdivision.GuardedCallsShrink | recursive_division.py:126-133 | under the guard every recursive call gets a non-empty view other than its caller's, strictly smaller in `tx + ty` |
| FirstTry.CallsShrink | recursive_division.py:34-43 | without a guard, every call of `f1` beyond the base case recurses into non-empty, strictly smaller views |
| FirstTry.CentreIsCorner | recursive_division.py:34-39 | the centre is a corner of the view exactly when both sides are at most 2 |
| FirstTry.CornerStaysCorner | recursive_division.py:40-43 | a corner of the view lying in a cut is a corner of that cut |
| FirstTry.DivideAvoidsCorners | recursive_division.py:23-43 | `f1` never writes a corner of the view it is given |
| FirstTry.VisitAvoidsCorners | recursive_division.py:40-43 | none of the four recursive calls writes a corner of the caller's view |
| FirstTry.CornersKept | recursive_division.py:23-43 | on a non-empty buffer `f1` completes and the buffer's four corners keep their values |
| FirstTry.ThreeByThree | recursive_division.py:34-43 | on a 3 x 3 view `f1` makes exactly the centre assignment, at local (1, 1) |
| FirstTry.ThreeByThreeZero | recursive_division.py:34-43 | on a 3 x 3 view with zero corners only the middle cell changes, to the offset of one draw |
| SecondTry.CentreReached | recursive_division.py:69 | the centre of a non-base view is a cell `f2` computes |
| SecondTry.ReachLifts | recursive_division.py:77-84 | a cell computed within an admitted cut is computed by the parent |
| SecondTry.PickCut | recursive_division.py:71-84 | every computed cell other than the centre is computed within some admitted cut |
| SecondTry.DivideSound | recursive_division.py:46-84 | every cell `f2` writes lies off the view's first row and column, unless the view is one row high or one column wide |
| SecondTry.VisitSound | recursive_division.py:77-84 | every cell the guarded recursive calls write is one the caller computes |
| SecondTry.DivideComplete | recursive_division.py:46-84 | every such cell of a view above the base case is written |
| SecondTry.VisitComplete | recursive_division.py:77-84 | a cell computed within an admitted cut is written by the loop at or before that cut |
| SecondTry.WritesExactly | recursive_division.py:46-84 | the cells `f2` writes are exactly the view minus its first row and first column, with the degenerate one-row or one-column cases kept |
| SecondTry.EdgesAndCorners | recursive_division.py:46-84 | on a buffer of at least 2 x 2, row 0 and column 0 keep their values and the bottom-right corner is written |
| SecondTry.PairCuts | recursive_division.py:71-84 | every cut of a 1 x 2 or 2 x 1 view is rejected by the guard or returns at once |
| SecondTry.SquareCuts | recursive_division.py:71-84 | of a 2 x 2 view's cuts the first is the view itself, the next two are its bottom row and right column, and the last is one cell |
| SecondTry.PairLoopIdle | recursive_division.py:77-84 | on a 1 x 2 or 2 x 1 view the loop writes nothing |
| SecondTry.PairWritesCentre | recursive_division.py:62-84 | on a 1 x 2 or 2 x 1 view `f2` makes exactly the centre assignment |
| SecondTry.TwoByTwoTail | recursive_division.py:77-84 | the last two cuts of a 2 x 2 view write only the right column's centre |
| SecondTry.TwoByTwoBottom | recursive_division.py:77-84 | the cuts after the first of a 2 x 2 view write the bottom row's centre, then the right column's |
| SecondTry.TwoByTwoCuts | recursive_division.py:77-84 | the loop of a 2 x 2 view skips the view itself and writes the two pair centres in order |
| SecondTry.TwoByTwoCalls | recursive_division.py:62-84 | `f2` on a 2 x 2 view writes its centre three times: as the view, the bottom row and the right column |
| SecondTry.SquareStep | recursive_division.py:69 | on a 2 x 2 view the centre is the bottom-right corner, which becomes the corner mean plus an offset |
| SecondTry.BottomStep | recursive_division.py:69 | the bottom row's centre is that corner, which becomes the mean of the bottom row plus an offset |
| SecondTry.RightStep | recursive_division.py:69 | the right column's centre is that corner, which becomes the mean of the right column plus an offset |
| SecondTry.TwoByTwoValue | recursive_division.py:62-84 | the value `f2` leaves in the bottom-right corner of a 2 x 2 view, as three nested means of the corners and three offsets |
| SecondTry.TwoByTwo | recursive_division.py:62-84 | on a 2 x 2 view with zero corners, the bottom-right corner ends as a quarter of the first offset, plus half the second, plus the third |
| Subdivision.Top | recursive_division.py:112 | the top midpoint lies on the view's first row, halfway between its two top corners |
| Subdivision.Bottom | recursive_division.py:113 | the bottom midpoint lies on the view's last row, halfway between its two bottom corners |
| Subdivision.Left | recursive_division.py:115 | the left midpoint lies on the view's first column, halfway between its two left corners |
| Subdivision.Right | recursive_division.py:116 | the right midpoint lies on the view's last column, halfway between its two right corners |
| ThirdTry.NodeOrder | recursive_division.py:112-118 | `f3` writes top, bottom, left and right midpoints, then the centre, taking five draws |
| ThirdTry.CellsApart | recursive_division.py:103-118 | when both sides are at least 3, the five written cells are distinct and none is a corner |
| ThirdTry.EdgeValues | recursive_division.py:112-116 | then each edge midpoint is the mean of its edge's original corners plus its raw draw, and each of the four corners keeps its value |
| ThirdTry.NodeValues | recursive_division.py:112-118 | then all five values come from the original corners, and the centre is the corner mean plus the offset of the fifth draw |
| ThirdTry.NarrowCells | recursive_division.py:103-116 | on a view two columns wide the top and bottom midpoints are the right-hand corners and the right midpoint is the centre |
| ThirdTry.NarrowNode | recursive_division.py:112-118 | on a view two columns wide and at least three rows high, the top-right corner is overwritten with the top row's mean and the bottom-right corner with the bottom row's mean, and the centre reads the overwritten corners |
| ThirdTry.ThreeByThreeCells | recursive_division.py:103-118 | on a 3 x 3 view the five cells are the middles of the sides and the middle cell |
| ThirdTry.ZeroCorners | recursive_division.py:112-118 | with zero corners and both sides at least 3, each edge midpoint becomes its raw draw and the centre its offset |
| ThirdTry.ThreeByThreeZero | recursive_division.py:101-133 | on a 3 x 3 view with zero corners `f3` writes exactly its five cells: each edge midpoint ends equal to its raw draw and the middle cell to its offset |
| Replay.EdgeReplay | recursive_division.py:112-116 | the edge writes depend on no draw beyond the four they take |
| Replay.CentreReplay | recursive_division.py:118 | the centre write depends on no draw beyond the one it takes |
| Replay.NodeReplay | recursive_division.py:112-118 | a node's writes depend only on the draws they take |
| Replay.DivideReplay | recursive_division.py:87-133 | two streams that agree on the draws a call consumes give the same buffer, position and writes |
| Replay.VisitReplay | recursive_division.py:126-133 | the same holds for the loop over the cuts |
| Replay.SubdivideReplay | recursive_division.py:23-133 | a whole-buffer run of any try is determined by the draws it consumes |

## Left out

- Random number generation: `random.random()` is an arbitrary stream of
  reals. The range [0, 1) is assumed only where a lemma says so.
- Floating-point arithmetic: buffer values and means are exact reals,
  without float64 rounding.
- The table of try and distribution pairs, `main`, the 128 x 128 buffer,
  printing of minimum and maximum, and the colour-mapped image output
  (lines 144-176). They drive and render the computation and are not part
  of it.
- Buffers of an integer element type: every buffer is taken to hold
  floating-point values, as numpy `zeros` in `main` gives. Allocating that
  buffer is not modelled.
- No bound on recursion depth is stated. Termination follows from the
  strictly decreasing `tx + ty` of each call's view.
- The final buffer of `f3` on a 5 x 5 buffer is not computed. Its node's
  five values follow from `ThirdTry.NodeValues`, and
  `Subdivision.ThreeByThreeLeaf` covers the 3 x 3 cuts.
- ThirdTry.NarrowNode: only the view two columns wide and at least three rows high is stated. The
  mirrored view two rows high is symmetric and is not stated separately.
- FirstTry.ThreeByThreeZero, SecondTry.TwoByTwo, ThirdTry.ThreeByThreeZero:
  these small cases are stated for any view of that shape whose four
  corners are zero, not for a whole freshly zeroed buffer. That is the
  more general statement.

=== FILE: first_try.dfy ===
/** Properties of the first try, `f1`: it has no guard in front of its
    recursive calls, yet every call it makes is on a strictly smaller view, so
    it always terminates; and it never writes a corner of the view it is
    given, so the four corners of the buffer keep their initial value. */
module FirstTry {
  import opened Grids
  import opened Offsets
  import opened Quadrants
  import opened Subdivision

  /** A call of `f1` that does not return at once has a side of three or
      more, which every cut shortens, while no cut lengthens a side: each
      recursive call is on a non-empty view strictly smaller than its
      caller's, never the caller's own view. */
  lemma CallsShrink(reg: Region, i: nat)
    requires reg.NonEmpty() && !IsBase(F1, reg) && i < 4
    ensures Descends(F1, reg, Cuts(reg)[i])
    ensures Child(reg, Cuts(reg)[i]).NonEmpty()
    ensures Child(reg, Cuts(reg)[i]).tx <= reg.tx && Child(reg, Cuts(reg)[i]).ty <= reg.ty
    ensures Child(reg, Cuts(reg)[i]).tx + Child(reg, Cuts(reg)[i]).ty < reg.tx + reg.ty
  {
    CutShrinks(reg, i);
    CutStep(reg, i);
  }

  /** The centre of a non-empty view is one of its corners exactly when both
      sides are at most 2, which is `f1`'s early return. */
  lemma CentreIsCorner(reg: Region)
    requires reg.NonEmpty()
    ensures reg.IsCorner(Centre(reg)) <==> reg.tx <= 2 && reg.ty <= 2
  {
    var c := Centre(reg);
    var onRow := c.row == reg.rs || c.row == reg.rs + reg.tx - 1;
    var onCol := c.col == reg.cs || c.col == reg.cs + reg.ty - 1;
    assert onRow <==> reg.tx <= 2;
    assert onCol <==> reg.ty <= 2;
    assert reg.IsCorner(c) <==> onRow && onCol;
  }

  /** A corner of a view that lies in one of its cuts is a corner of the cut. */
  lemma CornerStaysCorner(reg: Region, i: nat, c: Cell)
    requires reg.NonEmpty() && i < 4
    requires reg.IsCorner(c) && Child(reg, Cuts(reg)[i]).Contains(c)
    ensures Child(reg, Cuts(reg)[i]).NonEmpty()
    ensures Child(reg, Cuts(reg)[i]).IsCorner(c)
  {
    CutStep(reg, i);
  }

  /** `f1` never writes a corner of the view it is given. */
  lemma {:induction false} DivideAvoidsCorners(reg: Region, g: Grid, d: Distribution, s: Stream, k: nat)
    requires g.Valid() && reg.NonEmpty() && reg.Within(g)
    ensures forall c :: c in Divide(F1, reg, g, d, s, k).writes ==> !reg.IsCorner(c)
    decreases reg.tx + reg.ty, 1, 0
  {
    if !IsBase(F1, reg) {
      var n := Node(F1, reg, g, d, s, k);
      CentreIsCorner(reg);
      VisitAvoidsCorners(reg, 0, n.grid, d, s, n.next);
    }
  }

  lemma {:induction false} VisitAvoidsCorners(reg: Region, i: nat, g: Grid, d: Distribution, s: Stream, k: nat)
    requires g.Valid() && reg.NonEmpty() && reg.Within(g) && !IsBase(F1, reg) && i <= 4
    ensures forall c :: c in Visit(F1, reg, i, g, d, s, k).writes ==> !reg.IsCorner(c)
    decreases reg.tx + reg.ty, 0, 4 - i
  {
    if i < 4 {
      var cut := Cuts(reg)[i];
      CutStep(reg, i);
      var here := Divide(F1, Child(reg, cut), g, d, s, k);
      DivideAvoidsCorners(Child(reg, cut), g, d, s, k);
      forall c | c in here.writes
        ensures !reg.IsCorner(c)
      {
        if reg.IsCorner(c) {
          CornerStaysCorner(reg, i, c);
        }
      }
      VisitAvoidsCorners(reg, i + 1, here.grid, d, s, here.next);
    }
  }

  /** On a non-empty buffer `f1` returns normally and the buffer's four
      corners keep the values they had. */
  lemma CornersKept(g: Grid, d: Distribution, s: Stream)
    requires g.Valid() && g.rows > 0 && g.cols > 0
    ensures Subdivide(F1, g, d, s).Done?
    ensures forall c :: Whole(g).IsCorner(c) ==>
      g.Has(c) && Subdivide(F1, g, d, s).run.grid.Get(c) == g.Get(c)
  {
    var reg := Whole(g);
    ViewCells(reg, g);
    if !IsBase(F1, reg) {
      DivideAvoidsCorners(reg, g, d, s, 0);
    }
  }

  /** `f1` on a 3 x 3 view makes exactly one assignment, to the middle cell. */
  lemma ThreeByThree(reg: Region, g: Grid, d: Distribution, s: Stream, k: nat)
    requires g.Valid() && reg.Within(g) && reg.tx == 3 && reg.ty == 3
    ensures Centre(reg) == reg.At(1, 1)
    ensures Divide(F1, reg, g, d, s, k) == CentreStep(reg, g, d, s, k)
  {
    ThreeByThreeLeaf(F1, reg, g, d, s, k);
  }

  /** On a 3 x 3 view with zero corners, `f1` leaves exactly one changed
      cell: the middle one, which becomes the one draw's offset. */
  lemma ThreeByThreeZero(reg: Region, g: Grid, d: Distribution, s: Stream, k: nat)
    requires g.Valid() && reg.Within(g) && reg.tx == 3 && reg.ty == 3
    requires g.Get(reg.TopLeft()) == 0.0 && g.Get(reg.TopRight()) == 0.0
    requires g.Get(reg.BottomLeft()) == 0.0 && g.Get(reg.BottomRight()) == 0.0
    ensures Divide(F1, reg, g, d, s, k).writes == [reg.At(1, 1)]
    ensures Divide(F1, reg, g, d, s, k).grid.Get(reg.At(1, 1)) == Offset(d, s(k))
    ensures forall c :: g.Has(c) && c != reg.At(1, 1) ==>
      Divide(F1, reg, g, d, s, k).grid.Get(c) == g.Get(c)
  {
    ThreeByThree(reg, g, d, s, k);
    assert CornerMean(reg, g) == 0.0;
  }
}

=== FILE: grids.dfy ===
/** The shared two-dimensional buffer that every variant of the subdivision
    mutates, and the rectangular views (numpy slices) through which the
    recursive calls see it.  A view never copies: it is an absolute rectangle
    of the one buffer, and a local index is translated onto the buffer. */
module Grids {

  /** An absolute (row, column) position in the buffer. */
  datatype Cell = Cell(row: nat, col: nat)

  /** A `rows` x `cols` buffer of scalars, stored row by row. */
  datatype Grid = Grid(rows: nat, cols: nat, cells: seq<seq<real>>) {

    predicate Valid() {
      |cells| == rows && forall i :: 0 <= i < |cells| ==> |cells[i]| == cols
    }

    predicate Has(c: Cell) {
      c.row < rows && c.col < cols
    }

    function Get(c: Cell): real
      requires Valid() && Has(c)
    {
      cells[c.row][c.col]
    }

    /** In-place assignment `img[r, c] = v`, as a new buffer value. */
    function Set(c: Cell, v: real): (g: Grid)
      requires Valid() && Has(c)
      ensures g.Valid() && g.rows == rows && g.cols == cols
      ensures g.Get(c) == v
      ensures forall e {:trigger g.Get(e)} :: Has(e) && e != c ==> g.Get(e) == Get(e)
      ensures Frame(this, g, [c])
    {
      Grid(rows, cols, cells[c.row := cells[c.row][c.col := v]])
    }
  }

  /** `after` has the shape of `before`, and every cell that is not listed in
      `written` holds the value it held in `before`. */
  ghost predicate Frame(before: Grid, after: Grid, written: seq<Cell>)
    requires before.Valid()
  {
    && after.Valid()
    && after.rows == before.rows
    && after.cols == before.cols
    && forall c {:trigger after.Get(c)} :: before.Has(c) && c !in written ==> after.Get(c) == before.Get(c)
  }

  /** Two framed steps compose into one framed step whose write list is the
      concatenation of theirs. */
  lemma FrameCompose(g0: Grid, g1: Grid, g2: Grid, w1: seq<Cell>, w2: seq<Cell>)
    requires g0.Valid() && Frame(g0, g1, w1) && Frame(g1, g2, w2)
    ensures Frame(g0, g2, w1 + w2)
  {
    forall c | g0.Has(c) && c !in w1 + w2
      ensures g2.Get(c) == g0.Get(c)
    {
      assert c !in w1 && c !in w2;
    }
  }

  /** A rectangular view of the buffer: rows `rs .. rs+tx-1`, columns
      `cs .. cs+ty-1`.  `tx` and `ty` are the view's `img.shape`. */
  datatype Region = Region(rs: nat, cs: nat, tx: nat, ty: nat) {

    predicate NonEmpty() {
      tx > 0 && ty > 0
    }

    predicate Within(g: Grid) {
      rs + tx <= g.rows && cs + ty <= g.cols
    }

    predicate Contains(c: Cell) {
      rs <= c.row < rs + tx && cs <= c.col < cs + ty
    }

    /** The buffer cell behind local index (i, j) of this view. */
    function At(i: nat, j: nat): Cell {
      Cell(rs + i, cs + j)
    }

    /** The four cells the source reaches as `img[0,0]`, `img[0,-1]`,
        `img[-1,0]` and `img[-1,-1]`; `-1` is the last row or column. */
    function TopLeft(): Cell { At(0, 0) }
    function TopRight(): Cell requires ty > 0 { At(0, ty - 1) }
    function BottomLeft(): Cell requires tx > 0 { At(tx - 1, 0) }
    function BottomRight(): Cell requires tx > 0 && ty > 0 { At(tx - 1, ty - 1) }

    predicate IsCorner(c: Cell)
      requires NonEmpty()
    {
      c == TopLeft() || c == TopRight() || c == BottomLeft() || c == BottomRight()
    }

    /** The numpy view `img[x0:x1, y0:y1]` of this view. */
    function Slice(x0: nat, x1: nat, y0: nat, y1: nat): (r: Region)
      requires x0 <= x1 <= tx && y0 <= y1 <= ty
      ensures r.tx == x1 - x0 && r.ty == y1 - y0
      ensures forall c :: r.Contains(c) ==> Contains(c)
    {
      Region(rs + x0, cs + y0, x1 - x0, y1 - y0)
    }
  }

  /** A write at local index (i, j) of the view `img[x0:x1, y0:y1]` lands at
      local index (x0 + i, y0 + j) of its parent. */
  lemma SliceTranslates(reg: Region, x0: nat, x1: nat, y0: nat, y1: nat, i: nat, j: nat)
    requires x0 <= x1 <= reg.tx && y0 <= y1 <= reg.ty
    ensures reg.Slice(x0, x1, y0, y1).At(i, j) == reg.At(x0 + i, y0 + j)
    ensures i < x1 - x0 && j < y1 - y0 ==> reg.Contains(reg.At(x0 + i, y0 + j))
  {
  }

  /** The view of a whole buffer, as handed to a variant by its caller. */
  function Whole(g: Grid): (r: Region)
    ensures r.Within(g)
    ensures forall c :: r.Contains(c) <==> g.Has(c)
  {
    Region(0, 0, g.rows, g.cols)
  }
}

=== FILE: offsets.dfy ===
/** The source of random displacements.  Every draw in the program comes from
    one global stream of uniform numbers; a variant's `randfunc` either hands a
    draw over unchanged or recentres it around zero. */
module Offsets {

  /** The two `randfunc` choices: `random.random` and
      `lambda: random.random() - 0.5`. */
  datatype Distribution = Uniform01 | Centered

  /** The uniform draws, indexed by how many were taken before. */
  type Stream = nat -> real

  /** The displacement `randfunc()` yields for the uniform draw `u`. */
  function Offset(d: Distribution, u: real): (o: real)
    ensures 0.0 <= u < 1.0 ==> -0.5 <= o < 1.0
  {
    match d
    case Uniform01 => u
    case Centered => u - 0.5
  }

  /** For a draw in [0, 1) the displacement lies in [0, 1) or [-0.5, 0.5),
      and the two distributions differ by exactly one half. */
  lemma OffsetRange(d: Distribution, u: real)
    requires 0.0 <= u < 1.0
    ensures d == Uniform01 ==> 0.0 <= Offset(d, u) < 1.0
    ensures d == Centered ==> -0.5 <= Offset(d, u) < 0.5
    ensures Offset(Centered, u) == Offset(Uniform01, u) - 0.5
  {
  }

  /** `s1` and `s2` yield the same draws at positions `k .. k+n-1`. */
  ghost predicate Agree(s1: Stream, s2: Stream, k: nat, n: nat) {
    forall j: nat :: k <= j < k + n ==> s1(j) == s2(j)
  }
}

=== FILE: quadrants.dfy ===
/** The four overlapping cuts every variant recurses into, and the guard that
    the second and third variants put in front of each recursive call. */
module Quadrants {
  import opened Grids

  /** The local slice bounds `((x0, x1), (y0, y1))` of one entry of `cuts`. */
  datatype Cut = Cut(x0: nat, x1: nat, y0: nat, y1: nat)

  predicate Fits(reg: Region, cut: Cut) {
    cut.x0 <= cut.x1 <= reg.tx && cut.y0 <= cut.y1 <= reg.ty
  }

  /** The midpoint row and column, Python 2 integer division of the shape:
      the floor of half the extent. */
  function MidRow(reg: Region): (m: nat)
    ensures 2 * m <= reg.tx < 2 * m + 2
  {
    reg.tx / 2
  }

  function MidCol(reg: Region): (m: nat)
    ensures 2 * m <= reg.ty < 2 * m + 2
  {
    reg.ty / 2
  }

  /** The cuts in the order they are visited: top-left, bottom-left,
      top-right, bottom-right.  Neighbours share the midpoint row or column. */
  function Cuts(reg: Region): (cuts: seq<Cut>)
    requires reg.NonEmpty()
    ensures |cuts| == 4
    ensures forall i :: 0 <= i < 4 ==> Fits(reg, cuts[i])
    ensures forall i :: 0 <= i < 4 ==>
      cuts[i].x0 <= MidRow(reg) < cuts[i].x1 && cuts[i].y0 <= MidCol(reg) < cuts[i].y1
  {
    var mx := MidRow(reg);
    var my := MidCol(reg);
    [ Cut(0, mx + 1, 0, my + 1),
      Cut(mx, reg.tx, 0, my + 1),
      Cut(0, mx + 1, my, reg.ty),
      Cut(mx, reg.tx, my, reg.ty) ]
  }

  /** The view `img[x0:x1, y0:y1]` a cut selects. */
  function Child(reg: Region, cut: Cut): Region
    requires Fits(reg, cut)
  {
    reg.Slice(cut.x0, cut.x1, cut.y0, cut.y1)
  }

  /** The recursion guard: the cut is non-empty and is not the whole view.
      A cut that passes it selects a non-empty view other than `reg`. */
  predicate Admit(reg: Region, cut: Cut): (ok: bool)
    ensures ok && Fits(reg, cut) ==> Child(reg, cut).NonEmpty() && Child(reg, cut) != reg
  {
    && (cut.x0 < cut.x1 && cut.y0 < cut.y1)
    && !(cut.x0 == 0 && cut.x1 == reg.tx && cut.y0 == 0 && cut.y1 == reg.ty)
  }

  /** The cuts of a non-empty view are non-empty sub-views that together cover
      it; each holds one corner of the view, in visiting order TL, BL, TR, BR;
      each cut shares with the one below it exactly its stretch of the
      midpoint row, and with the one to its right exactly its stretch of the
      midpoint column. */
  lemma CutGeometry(reg: Region)
    requires reg.NonEmpty()
    ensures forall i :: 0 <= i < 4 ==> Child(reg, Cuts(reg)[i]).NonEmpty()
    ensures forall c :: reg.Contains(c) <==>
      exists i :: 0 <= i < 4 && Child(reg, Cuts(reg)[i]).Contains(c)
    ensures Child(reg, Cuts(reg)[0]).Contains(reg.TopLeft())
    ensures Child(reg, Cuts(reg)[1]).Contains(reg.BottomLeft())
    ensures Child(reg, Cuts(reg)[2]).Contains(reg.TopRight())
    ensures Child(reg, Cuts(reg)[3]).Contains(reg.BottomRight())
    ensures forall c ::
      Child(reg, Cuts(reg)[0]).Contains(c) && Child(reg, Cuts(reg)[1]).Contains(c)
      <==> c.row == reg.rs + MidRow(reg) && reg.cs <= c.col <= reg.cs + MidCol(reg)
    ensures forall c ::
      Child(reg, Cuts(reg)[0]).Contains(c) && Child(reg, Cuts(reg)[2]).Contains(c)
      <==> c.col == reg.cs + MidCol(reg) && reg.rs <= c.row <= reg.rs + MidRow(reg)
    ensures forall c ::
      Child(reg, Cuts(reg)[1]).Contains(c) && Child(reg, Cuts(reg)[3]).Contains(c)
      <==> c.col == reg.cs + MidCol(reg) && reg.rs + MidRow(reg) <= c.row < reg.rs + reg.tx
    ensures forall c ::
      Child(reg, Cuts(reg)[2]).Contains(c) && Child(reg, Cuts(reg)[3]).Contains(c)
      <==> c.row == reg.rs + MidRow(reg) && reg.cs + MidCol(reg) <= c.col < reg.cs + reg.ty
  {
    var cuts := Cuts(reg);
    forall c | reg.Contains(c)
      ensures exists i :: 0 <= i < 4 && Child(reg, cuts[i]).Contains(c)
    {
      var top := c.row <= reg.rs + MidRow(reg);
      var left := c.col <= reg.cs + MidCol(reg);
      var i := if top && left then 0 else if left then 1 else if top then 2 else 3;
      assert Child(reg, cuts[i]).Contains(c);
    }
  }

  /** Every dimension of a cut is at most the view's; a dimension of three or
      more strictly shrinks, so one of 1 or 2 is the only kind that can stay. */
  lemma CutShrinks(reg: Region, i: nat)
    requires reg.NonEmpty() && i < 4
    ensures Child(reg, Cuts(reg)[i]).tx <= reg.tx
    ensures Child(reg, Cuts(reg)[i]).ty <= reg.ty
    ensures reg.tx >= 3 ==> Child(reg, Cuts(reg)[i]).tx < reg.tx
    ensures reg.ty >= 3 ==> Child(reg, Cuts(reg)[i]).ty < reg.ty
  {
  }

  /** On a non-empty view the guard admits a cut exactly when the cut's view
      differs from the whole view, and then the view strictly shrinks. */
  lemma AdmitIffProper(reg: Region, i: nat)
    requires reg.NonEmpty() && i < 4
    ensures Admit(reg, Cuts(reg)[i]) <==> Child(reg, Cuts(reg)[i]) != reg
    ensures Admit(reg, Cuts(reg)[i]) ==>
      Child(reg, Cuts(reg)[i]).tx + Child(reg, Cuts(reg)[i]).ty < reg.tx + reg.ty
  {
  }

  /** What a recursive call on a cut may rely on: the cut's view is non-empty,
      and it is strictly smaller when the view has a dimension of three or
      more or when the guard admits the cut. */
  lemma CutStep(reg: Region, i: nat)
    requires reg.NonEmpty() && i < 4
    ensures Child(reg, Cuts(reg)[i]).NonEmpty()
    ensures reg.tx >= 3 || reg.ty >= 3 || Admit(reg, Cuts(reg)[i]) ==>
      Child(reg, Cuts(reg)[i]).tx + Child(reg, Cuts(reg)[i]).ty < reg.tx + reg.ty
  {
    CutShrinks(reg, i);
    AdmitIffProper(reg, i);
  }
}

=== FILE: replay.dfy ===
/** The only randomness a call sees is the window of draws it consumes: two
    streams that agree on that window give the same buffer, the same
    position and the same cells written.  A call is therefore replayed
    exactly by seeding the generator the same way. */
module Replay {
  import opened Grids
  import opened Offsets
  import opened Quadrants
  import opened Subdivision

  /** Agreement on a window carries over to every window inside it. */
  lemma AgreeWithin(s1: Stream, s2: Stream, k: nat, n: nat, k2: nat, n2: nat)
    requires Agree(s1, s2, k, n) && k <= k2 && k2 + n2 <= k + n
    ensures Agree(s1, s2, k2, n2)
  {
  }

  /** The edge writes of `f3` read only draws `k .. k+3`. */
  lemma EdgeReplay(reg: Region, g: Grid, s1: Stream, s2: Stream, k: nat)
    requires g.Valid() && reg.NonEmpty() && reg.Within(g)
    requires Agree(s1, s2, k, 4)
    ensures EdgeMidpoints(reg, g, s1, k) == EdgeMidpoints(reg, g, s2, k)
  {
    assert s1(k) == s2(k) && s1(k + 1) == s2(k + 1);
    assert s1(k + 2) == s2(k + 2) && s1(k + 3) == s2(k + 3);
  }

  /** The centre write reads only draw `k`. */
  lemma CentreReplay(reg: Region, g: Grid, d: Distribution, s1: Stream, s2: Stream, k: nat)
    requires g.Valid() && reg.NonEmpty() && reg.Within(g)
    requires Agree(s1, s2, k, 1)
    ensures CentreStep(reg, g, d, s1, k) == CentreStep(reg, g, d, s2, k)
  {
    assert s1(k) == s2(k);
  }

  /** The assignments of a node read only the draws they consume. */
  lemma NodeReplay(v: Variant, reg: Region, g: Grid, d: Distribution, s1: Stream, s2: Stream, k: nat)
    requires g.Valid() && reg.NonEmpty() && reg.Within(g)
    requires Agree(s1, s2, k, |Node(v, reg, g, d, s1, k).writes|)
    ensures Node(v, reg, g, d, s1, k) == Node(v, reg, g, d, s2, k)
  {
    var n := |Node(v, reg, g, d, s1, k).writes|;
    if v == F3 {
      var e := EdgeMidpoints(reg, g, s1, k);
      var c := CentreStep(reg, e.grid, d, s1, e.next);
      assert Node(v, reg, g, d, s1, k) == Run(c.grid, c.next, e.writes + c.writes);
      AgreeWithin(s1, s2, k, n, k, 4);
      EdgeReplay(reg, g, s1, s2, k);
      AgreeWithin(s1, s2, k, n, k + 4, 1);
      CentreReplay(reg, e.grid, d, s1, s2, k + 4);
    } else {
      AgreeWithin(s1, s2, k, n, k, 1);
      CentreReplay(reg, g, d, s1, s2, k);
    }
  }

  /** A call gives the same result on any two streams that agree on the draws
      it consumes. */
  lemma {:induction false} DivideReplay(v: Variant, reg: Region, g: Grid, d: Distribution,
                                        s1: Stream, s2: Stream, k: nat)
    requires g.Valid() && reg.NonEmpty() && reg.Within(g)
    requires Agree(s1, s2, k, |Divide(v, reg, g, d, s1, k).writes|)
    ensures Divide(v, reg, g, d, s1, k) == Divide(v, reg, g, d, s2, k)
    decreases reg.tx + reg.ty, 1, 0
  {
    if !IsBase(v, reg) {
      var r := Divide(v, reg, g, d, s1, k);
      var n := Node(v, reg, g, d, s1, k);
      var rest := Visit(v, reg, 0, n.grid, d, s1, n.next);
      assert r.writes == n.writes + rest.writes;
      AgreeWithin(s1, s2, k, |r.writes|, k, |n.writes|);
      NodeReplay(v, reg, g, d, s1, s2, k);
      AgreeWithin(s1, s2, k, |r.writes|, n.next, |rest.writes|);
      VisitReplay(v, reg, 0, n.grid, d, s1, s2, n.next);
    }
  }

  lemma {:induction false} VisitReplay(v: Variant, reg: Region, i: nat, g: Grid, d: Distribution,
                                       s1: Stream, s2: Stream, k: nat)
    requires g.Valid() && reg.NonEmpty() && reg.Within(g) && !IsBase(v, reg) && i <= 4
    requires Agree(s1, s2, k, |Visit(v, reg, i, g, d, s1, k).writes|)
    ensures Visit(v, reg, i, g, d, s1, k) == Visit(v, reg, i, g, d, s2, k)
    decreases reg.tx + reg.ty, 0, 4 - i
  {
    if i < 4 {
      var r := Visit(v, reg, i, g, d, s1, k);
      var cut := Cuts(reg)[i];
      if Descends(v, reg, cut) {
        CutStep(reg, i);
        var here := Divide(v, Child(reg, cut), g, d, s1, k);
        var rest := Visit(v, reg, i + 1, here.grid, d, s1, here.next);
        assert r.writes == here.writes + rest.writes;
        AgreeWithin(s1, s2, k, |r.writes|, k, |here.writes|);
        DivideReplay(v, Child(reg, cut), g, d, s1, s2, k);
        AgreeWithin(s1, s2, k, |r.writes|, here.next, |rest.writes|);
        VisitReplay(v, reg, i + 1, here.grid, d, s1, s2, here.next);
      } else {
        var rest := Visit(v, reg, i + 1, g, d, s1, k);
        assert r.writes == rest.writes;
        VisitReplay(v, reg, i + 1, g, d, s1, s2, k);
      }
    }
  }

  /** A run of a variant on a whole buffer is a function of the draws it
      consumes: the same seed gives the same picture. */
  lemma SubdivideReplay(v: Variant, g: Grid, d: Distribution, s1: Stream, s2: Stream)
    requires g.Valid()
    requires Subdivide(v, g, d, s1).Done? ==>
      Agree(s1, s2, 0, |Subdivide(v, g, d, s1).run.writes|)
    ensures Subdivide(v, g, d, s1) == Subdivide(v, g, d, s2)
  {
    var whole := Whole(g);
    if !IsBase(v, whole) && whole.NonEmpty() {
      DivideReplay(v, whole, g, d, s1, s2, 0);
    }
  }
}

=== FILE: second_try.dfy ===
/** Properties of the second try, `f2`: the guard keeps every recursive call
    on a non-empty, strictly smaller view, and the set of cells a call writes
    is exactly the view minus its first row and first column (a view one row
    high or one column wide keeps that row or column).  So the top and left
    edges of the buffer are never computed, while the bottom-right corner is. */
module SecondTry {
  import opened Grids
  import opened Offsets
  import opened Quadrants
  import opened Subdivision

  /** The cells `f2` computes on `reg`. */
  predicate Reaches(reg: Region, c: Cell) {
    && reg.Contains(c)
    && !IsBase(F2, reg)
    && (c.row > reg.rs || reg.tx == 1)
    && (c.col > reg.cs || reg.ty == 1)
  }

  lemma CentreReached(reg: Region)
    requires reg.NonEmpty() && !IsBase(F2, reg)
    ensures Reaches(reg, Centre(reg))
  {
  }

  /** A cell computed by an admitted cut is computed by its parent. */
  lemma ReachLifts(reg: Region, i: nat, c: Cell)
    requires reg.NonEmpty() && i < 4
    requires Admit(reg, Cuts(reg)[i]) && Reaches(Child(reg, Cuts(reg)[i]), c)
    ensures Reaches(reg, c)
  {
  }

  /** A computed cell other than the centre lies, not on the first row or
      column, in an admitted cut: the bottom cuts when it is below the
      midpoint row, the right cuts when it is right of the midpoint column. */
  lemma PickCut(reg: Region, c: Cell) returns (j: nat)
    requires reg.NonEmpty() && Reaches(reg, c) && c != Centre(reg)
    ensures j < 4 && Admit(reg, Cuts(reg)[j]) && Reaches(Child(reg, Cuts(reg)[j]), c)
  {
    var top := c.row <= reg.rs + MidRow(reg);
    var left := c.col <= reg.cs + MidCol(reg);
    j := if top && left then 0 else if left then 1 else if top then 2 else 3;
    var ch := Child(reg, Cuts(reg)[j]);
    assert ch.Contains(c);
    if !top {
      assert ch.tx >= 2;
    }
    if !left {
      assert ch.ty >= 2;
    }
  }

  /** Soundness: every cell `f2` writes is one it computes. */
  lemma DivideSound(reg: Region, g: Grid, d: Distribution, s: Stream, k: nat)
    requires g.Valid() && reg.NonEmpty() && reg.Within(g)
    ensures forall c :: c in Divide(F2, reg, g, d, s, k).writes ==> Reaches(reg, c)
    decreases reg.tx + reg.ty, 1, 0
  {
    if !IsBase(F2, reg) {
      var n := Node(F2, reg, g, d, s, k);
      CentreReached(reg);
      VisitSound(reg, 0, n.grid, d, s, n.next);
    }
  }

  lemma VisitSound(reg: Region, i: nat, g: Grid, d: Distribution, s: Stream, k: nat)
    requires g.Valid() && reg.NonEmpty() && reg.Within(g) && !IsBase(F2, reg) && i <= 4
    ensures forall c :: c in Visit(F2, reg, i, g, d, s, k).writes ==> Reaches(reg, c)
    decreases reg.tx + reg.ty, 0, 4 - i
  {
    if i < 4 {
      var cut := Cuts(reg)[i];
      CutStep(reg, i);
      var here :=
        if Descends(F2, reg, cut) then Divide(F2, Child(reg, cut), g, d, s, k)
        else Run(g, k, []);
      if Descends(F2, reg, cut) {
        DivideSound(Child(reg, cut), g, d, s, k);
        forall c | c in here.writes
          ensures Reaches(reg, c)
        {
          ReachLifts(reg, i, c);
        }
      }
      VisitSound(reg, i + 1, here.grid, d, s, here.next);
    }
  }

  /** Completeness: every cell `f2` computes is written. */
  lemma DivideComplete(reg: Region, g: Grid, d: Distribution, s: Stream, k: nat, c: Cell)
    requires g.Valid() && reg.NonEmpty() && reg.Within(g) && Reaches(reg, c)
    ensures c in Divide(F2, reg, g, d, s, k).writes
    decreases reg.tx + reg.ty, 1, 0
  {
    var n := Node(F2, reg, g, d, s, k);
    if c != Centre(reg) {
      var j := PickCut(reg, c);
      VisitComplete(reg, 0, n.grid, d, s, n.next, c, j);
    }
  }

  lemma VisitComplete(reg: Region, i: nat, g: Grid, d: Distribution, s: Stream, k: nat, c: Cell, j: nat)
    requires g.Valid() && reg.NonEmpty() && reg.Within(g) && !IsBase(F2, reg) && i <= j < 4
    requires Admit(reg, Cuts(reg)[j]) && Reaches(Child(reg, Cuts(reg)[j]), c)
    ensures c in Visit(F2, reg, i, g, d, s, k).writes
    decreases reg.tx + reg.ty, 0, 4 - i
  {
    var cut := Cuts(reg)[i];
    CutStep(reg, i);
    var here :=
      if Descends(F2, reg, cut) then Divide(F2, Child(reg, cut), g, d, s, k)
      else Run(g, k, []);
    if i == j {
      DivideComplete(Child(reg, cut), g, d, s, k, c);
    } else {
      VisitComplete(reg, i + 1, here.grid, d, s, here.next, c, j);
    }
  }

  /** The cells `f2` writes on a view are exactly the cells it computes. */
  lemma WritesExactly(reg: Region, g: Grid, d: Distribution, s: Stream, k: nat)
    requires g.Valid() && reg.NonEmpty() && reg.Within(g)
    ensures forall c :: c in Divide(F2, reg, g, d, s, k).writes <==> Reaches(reg, c)
  {
    DivideSound(reg, g, d, s, k);
    forall c | Reaches(reg, c)
      ensures c in Divide(F2, reg, g, d, s, k).writes
    {
      DivideComplete(reg, g, d, s, k, c);
    }
  }

  /** On a buffer of at least 2 x 2, `f2` never writes row 0 or column 0, so
      three corners keep their value, but it always writes the bottom-right
      corner. */
  lemma EdgesAndCorners(g: Grid, d: Distribution, s: Stream)
    requires g.Valid() && g.rows >= 2 && g.cols >= 2
    ensures Subdivide(F2, g, d, s).Done?
    ensures forall c :: g.Has(c) && (c.row == 0 || c.col == 0) ==>
      Subdivide(F2, g, d, s).run.grid.Get(c) == g.Get(c)
    ensures Cell(g.rows - 1, g.cols - 1) in Subdivide(F2, g, d, s).run.writes
  {
    var o := Subdivide(F2, g, d, s);
    WritesExactly(Whole(g), g, d, s, 0);
    assert Reaches(Whole(g), Cell(g.rows - 1, g.cols - 1));
  }

  /** The bottom 1 x 2 and the right 2 x 1 cut of a 2 x 2 view. */
  function BottomPair(reg: Region): Region { Region(reg.rs + 1, reg.cs, 1, 2) }
  function RightPair(reg: Region): Region { Region(reg.rs, reg.cs + 1, 2, 1) }

  /** Every cut of a 1 x 2 or 2 x 1 view is the whole view or a single cell. */
  lemma PairCuts(reg: Region, i: nat)
    requires (reg.tx == 1 && reg.ty == 2) || (reg.tx == 2 && reg.ty == 1)
    requires i < 4
    ensures !Admit(reg, Cuts(reg)[i]) || IsBase(F2, Child(reg, Cuts(reg)[i]))
  {
    AdmitIffProper(reg, i);
  }

  /** The cuts of a 2 x 2 view: the whole view, the bottom row, the right
      column and the bottom-right cell. */
  lemma SquareCuts(reg: Region)
    requires reg.tx == 2 && reg.ty == 2
    ensures !Admit(reg, Cuts(reg)[0])
    ensures Admit(reg, Cuts(reg)[1]) && Child(reg, Cuts(reg)[1]) == BottomPair(reg)
    ensures Admit(reg, Cuts(reg)[2]) && Child(reg, Cuts(reg)[2]) == RightPair(reg)
    ensures IsBase(F2, Child(reg, Cuts(reg)[3]))
    ensures Centre(BottomPair(reg)) == Centre(reg) && Centre(RightPair(reg)) == Centre(reg)
  {
  }

  /** On a 1 x 2 or 2 x 1 view the loop over the cuts does nothing. */
  lemma PairLoopIdle(reg: Region, g: Grid, d: Distribution, s: Stream, k: nat)
    requires g.Valid() && reg.Within(g)
    requires (reg.tx == 1 && reg.ty == 2) || (reg.tx == 2 && reg.ty == 1)
    ensures Visit(F2, reg, 0, g, d, s, k) == Run(g, k, [])
  {
    PairCuts(reg, 0);
    PairCuts(reg, 1);
    PairCuts(reg, 2);
    PairCuts(reg, 3);
    IdleCut(F2, reg, 3, g, d, s, k);
    IdleCut(F2, reg, 2, g, d, s, k);
    IdleCut(F2, reg, 1, g, d, s, k);
    IdleCut(F2, reg, 0, g, d, s, k);
  }

  /** A 1 x 2 or 2 x 1 view only gets its centre: every cut is either the
      whole view, which the guard skips, or a single cell. */
  lemma PairWritesCentre(reg: Region, g: Grid, d: Distribution, s: Stream, k: nat)
    requires g.Valid() && reg.Within(g)
    requires (reg.tx == 1 && reg.ty == 2) || (reg.tx == 2 && reg.ty == 1)
    ensures Divide(F2, reg, g, d, s, k) == CentreStep(reg, g, d, s, k)
  {
    var n := CentreStep(reg, g, d, s, k);
    PairLoopIdle(reg, n.grid, d, s, k + 1);
    assert n.writes + [] == n.writes;
  }

  /** The last two cuts of a 2 x 2 view: the right 2 x 1 cut gets its
      centre, the bottom-right single cell nothing. */
  lemma TwoByTwoTail(reg: Region, g: Grid, d: Distribution, s: Stream, k: nat)
    requires g.Valid() && reg.Within(g) && reg.tx == 2 && reg.ty == 2
    ensures Visit(F2, reg, 2, g, d, s, k)
         == Run(CentreStep(RightPair(reg), g, d, s, k).grid, k + 1, [Centre(reg)])
  {
    SquareCuts(reg);
    PairWritesCentre(RightPair(reg), g, d, s, k);
    var r := CentreStep(RightPair(reg), g, d, s, k);
    IdleCut(F2, reg, 3, r.grid, d, s, k + 1);
    assert Visit(F2, reg, 4, r.grid, d, s, k + 1) == Run(r.grid, k + 1, []);
  }

  /** The cuts after the first of a 2 x 2 view: the bottom and the right
      cut each write their centre, which is the view's centre. */
  lemma TwoByTwoBottom(reg: Region, g: Grid, d: Distribution, s: Stream, k: nat)
    requires g.Valid() && reg.Within(g) && reg.tx == 2 && reg.ty == 2
    ensures Visit(F2, reg, 1, g, d, s, k)
         == var b := CentreStep(BottomPair(reg), g, d, s, k);
            Run(CentreStep(RightPair(reg), b.grid, d, s, k + 1).grid, k + 2, [Centre(reg), Centre(reg)])
  {
    SquareCuts(reg);
    PairWritesCentre(BottomPair(reg), g, d, s, k);
    var b := CentreStep(BottomPair(reg), g, d, s, k);
    TwoByTwoTail(reg, b.grid, d, s, k + 1);
  }

  /** The four cuts of a 2 x 2 view: the first is the whole view, which the
      guard skips. */
  lemma TwoByTwoCuts(reg: Region, g: Grid, d: Distribution, s: Stream, k: nat)
    requires g.Valid() && reg.Within(g) && reg.tx == 2 && reg.ty == 2
    ensures Visit(F2, reg, 0, g, d, s, k)
         == var b := CentreStep(BottomPair(reg), g, d, s, k);
            Run(CentreStep(RightPair(reg), b.grid, d, s, k + 1).grid, k + 2, [Centre(reg), Centre(reg)])
  {
    SquareCuts(reg);
    IdleCut(F2, reg, 0, g, d, s, k);
    TwoByTwoBottom(reg, g, d, s, k);
  }

  /** `f2` on any 2 x 2 view writes its centre three times: as the view's
      centre, then as the centre of the bottom and of the right cut. */
  lemma TwoByTwoCalls(reg: Region, g: Grid, d: Distribution, s: Stream, k: nat)
    requires g.Valid() && reg.Within(g) && reg.tx == 2 && reg.ty == 2
    ensures Divide(F2, reg, g, d, s, k).writes == [Centre(reg), Centre(reg), Centre(reg)]
    ensures Divide(F2, reg, g, d, s, k).grid ==
      var n := CentreStep(reg, g, d, s, k);
      var b := CentreStep(BottomPair(reg), n.grid, d, s, k + 1);
      CentreStep(RightPair(reg), b.grid, d, s, k + 2).grid
  {
    var n := CentreStep(reg, g, d, s, k);
    TwoByTwoCuts(reg, n.grid, d, s, k + 1);
  }

  /** The mean of four corners two of which are `a` and two `b`. */
  lemma MeanOfPairs(a: real, b: real)
    ensures (a + a + b + b) / 4.0 == (a + b) / 2.0
  {
  }

  /** On a 2 x 2 view the view's own centre is its bottom-right corner: the
      first assignment overwrites that corner with the mean of all four, and
      the bottom-left and top-right corners keep their values. */
  lemma SquareStep(reg: Region, g: Grid, d: Distribution, s: Stream, k: nat)
    requires g.Valid() && reg.Within(g) && reg.tx == 2 && reg.ty == 2
    ensures Centre(reg) == reg.BottomRight()
    ensures var n := CentreStep(reg, g, d, s, k);
      && n.grid.Get(reg.BottomRight()) == CornerMean(reg, g) + Offset(d, s(k))
      && n.grid.Get(reg.BottomLeft()) == g.Get(reg.BottomLeft())
      && n.grid.Get(reg.TopRight()) == g.Get(reg.TopRight())
  {
  }

  /** The bottom cut's centre is the same corner: it becomes the mean of the
      bottom row, and the top-right corner keeps its value. */
  lemma BottomStep(reg: Region, g: Grid, d: Distribution, s: Stream, k: nat)
    requires g.Valid() && reg.Within(g) && reg.tx == 2 && reg.ty == 2
    ensures Centre(BottomPair(reg)) == reg.BottomRight()
    ensures var b := CentreStep(BottomPair(reg), g, d, s, k);
      && b.grid.Get(reg.BottomRight())
         == PairMean(g, reg.BottomLeft(), reg.BottomRight()) + Offset(d, s(k))
      && b.grid.Get(reg.TopRight()) == g.Get(reg.TopRight())
  {
    MeanOfPairs(g.Get(reg.BottomLeft()), g.Get(reg.BottomRight()));
  }

  /** The right cut's centre is the same corner again: it becomes the mean of
      the right column. */
  lemma RightStep(reg: Region, g: Grid, d: Distribution, s: Stream, k: nat)
    requires g.Valid() && reg.Within(g) && reg.tx == 2 && reg.ty == 2
    ensures Centre(RightPair(reg)) == reg.BottomRight()
    ensures CentreStep(RightPair(reg), g, d, s, k).grid.Get(reg.BottomRight())
         == PairMean(g, reg.TopRight(), reg.BottomRight()) + Offset(d, s(k))
  {
    MeanOfPairs(g.Get(reg.TopRight()), g.Get(reg.BottomRight()));
  }

  /** What `f2` leaves in the bottom-right corner of a 2 x 2 view: the mean
      of the corners plus a draw, averaged with the bottom-left corner plus a
      draw, averaged with the top-right corner plus a draw. */
  lemma TwoByTwoValue(reg: Region, g: Grid, d: Distribution, s: Stream, k: nat)
    requires g.Valid() && reg.Within(g) && reg.tx == 2 && reg.ty == 2
    ensures Divide(F2, reg, g, d, s, k).grid.Get(reg.BottomRight())
         == (g.Get(reg.TopRight())
             + ((g.Get(reg.BottomLeft()) + (CornerMean(reg, g) + Offset(d, s(k)))) / 2.0
                + Offset(d, s(k + 1)))) / 2.0
            + Offset(d, s(k + 2))
  {
    TwoByTwoCalls(reg, g, d, s, k);
    SquareStep(reg, g, d, s, k);
    var n := CentreStep(reg, g, d, s, k);
    BottomStep(reg, n.grid, d, s, k + 1);
    var b := CentreStep(BottomPair(reg), n.grid, d, s, k + 1);
    RightStep(reg, b.grid, d, s, k + 2);
  }

  /** On a 2 x 2 view whose corners are zero, `f2` writes the bottom-right
      corner three times and leaves there a weighted sum of the three draws:
      the corner of a zero buffer does not stay zero. */
  lemma TwoByTwo(reg: Region, g: Grid, d: Distribution, s: Stream, k: nat)
    requires g.Valid() && reg.Within(g) && reg.tx == 2 && reg.ty == 2
    requires g.Get(reg.TopLeft()) == 0.0 && g.Get(reg.TopRight()) == 0.0
    requires g.Get(reg.BottomLeft()) == 0.0 && g.Get(reg.BottomRight()) == 0.0
    ensures Divide(F2, reg, g, d, s, k).writes
         == [reg.BottomRight(), reg.BottomRight(), reg.BottomRight()]
    ensures Divide(F2, reg, g, d, s, k).grid.Get(reg.BottomRight())
         == Offset(d, s(k)) / 4.0 + Offset(d, s(k + 1)) / 2.0 + Offset(d, s(k + 2))
  {
    TwoByTwoCalls(reg, g, d, s, k);
    SquareStep(reg, g, d, s, k);
    TwoByTwoValue(reg, g, d, s, k);
    assert CornerMean(reg, g) == 0.0;
  }
}

=== FILE: subdivision.dfy ===
/** The subdivision engine.  The three tries of the program (`f1`, `f2`, `f3`)
    share one recursion: stop below a size limit, write the node's cells,
    then descend into the four cuts in order.  They differ in the size limit,
    in whether a cut must pass the guard, and in which cells a node writes.

    A call works on an absolute view `reg` of the buffer `g` and takes its
    draws from `s` starting at position `k`; it returns the new buffer, the
    position of the first unused draw and the cells it wrote, in order. */
module Subdivision {
  import opened Grids
  import opened Offsets
  import opened Quadrants

  /** `f1`: no guard, stops at max(shape) <= 2, writes the centre.
      `f2`: guarded, stops at max(shape) <= 1, writes the centre.
      `f3`: guarded, stops at max(shape) <= 2, writes four edge midpoints and
      then the centre. */
  datatype Variant = F1 | F2 | F3

  /** The largest side a view may have for the call to return at once: only
      `f2` goes down to single cells. */
  function BaseLimit(v: Variant): (n: nat)
    ensures 1 <= n <= 2
    ensures n == 1 <==> v == F2
  {
    if v == F2 then 1 else 2
  }

  /** The early `return` taken when `max(img.shape) <= limit`. */
  predicate IsBase(v: Variant, reg: Region) {
    reg.tx <= BaseLimit(v) && reg.ty <= BaseLimit(v)
  }

  /** Whether the variant recurses into `cut`: `f1` always does, while the
      guarded variants only descend into a non-empty view other than `reg`. */
  predicate Descends(v: Variant, reg: Region, cut: Cut): (b: bool)
    ensures v == F1 ==> b
    ensures b && v != F1 && Fits(reg, cut) ==> Child(reg, cut).NonEmpty() && Child(reg, cut) != reg
  {
    v == F1 || Admit(reg, cut)
  }

  /** The outcome of one call: the buffer, the next unused draw, and the
      cells written by the call and everything below it, in order. */
  datatype Run = Run(grid: Grid, next: nat, writes: seq<Cell>)

  function Centre(reg: Region): Cell {
    reg.At(MidRow(reg), MidCol(reg))
  }

  /** The average of the view's four corners as they stand in `g`. */
  function CornerMean(reg: Region, g: Grid): real
    requires g.Valid() && reg.NonEmpty() && reg.Within(g)
  {
    (g.Get(reg.TopLeft()) + g.Get(reg.TopRight())
     + g.Get(reg.BottomLeft()) + g.Get(reg.BottomRight())) / 4.0
  }

  /** The average of two cells as they stand in `g`. */
  function PairMean(g: Grid, a: Cell, b: Cell): real
    requires g.Valid() && g.Has(a) && g.Has(b)
  {
    (g.Get(a) + g.Get(b)) / 2.0
  }

  /** One edge assignment: `at` becomes the mean of `a` and `b` plus `u`. */
  function EdgeStep(g: Grid, at: Cell, a: Cell, b: Cell, u: real): (h: Grid)
    requires g.Valid() && g.Has(at) && g.Has(a) && g.Has(b)
    ensures Frame(g, h, [at])
    ensures h.Get(at) == PairMean(g, a, b) + u
  {
    g.Set(at, PairMean(g, a, b) + u)
  }

  /** The edge midpoints of a view, in the order `f3` writes them: each lies
      on its edge of the view, halfway between the edge's two corners (the
      nearer one by one cell when the edge has even length). */
  function Top(reg: Region): (c: Cell)
    requires reg.NonEmpty()
    ensures reg.Contains(c) && c.row == reg.TopLeft().row
    ensures 0 <= (c.col - reg.TopLeft().col) - (reg.TopRight().col - c.col) <= 1
  {
    reg.At(0, MidCol(reg))
  }

  function Bottom(reg: Region): (c: Cell)
    requires reg.NonEmpty()
    ensures reg.Contains(c) && c.row == reg.BottomLeft().row
    ensures 0 <= (c.col - reg.BottomLeft().col) - (reg.BottomRight().col - c.col) <= 1
  {
    reg.At(reg.tx - 1, MidCol(reg))
  }

  function Left(reg: Region): (c: Cell)
    requires reg.NonEmpty()
    ensures reg.Contains(c) && c.col == reg.TopLeft().col
    ensures 0 <= (c.row - reg.TopLeft().row) - (reg.BottomLeft().row - c.row) <= 1
  {
    reg.At(MidRow(reg), 0)
  }

  function Right(reg: Region): (c: Cell)
    requires reg.NonEmpty()
    ensures reg.Contains(c) && c.col == reg.TopRight().col
    ensures 0 <= (c.row - reg.TopRight().row) - (reg.BottomRight().row - c.row) <= 1
  {
    reg.At(MidRow(reg), reg.ty - 1)
  }

  /** `f3`'s four edge midpoints, written top, bottom, left, right: each is
      the mean of the two corners bounding its edge plus a raw draw, and each
      reads the buffer as the earlier ones left it. */
  function EdgeMidpoints(reg: Region, g: Grid, s: Stream, k: nat): (r: Run)
    requires g.Valid() && reg.NonEmpty() && reg.Within(g)
    ensures Frame(g, r.grid, r.writes)
    ensures forall c :: c in r.writes ==> reg.Contains(c)
    ensures r.writes == [Top(reg), Bottom(reg), Left(reg), Right(reg)]
    ensures r.next == k + 4
  {
    var top, bottom, left, right := Top(reg), Bottom(reg), Left(reg), Right(reg);
    ViewCells(reg, g);
    var g1 := EdgeStep(g, top, reg.TopLeft(), reg.TopRight(), s(k));
    var g2 := EdgeStep(g1, bottom, reg.BottomLeft(), reg.BottomRight(), s(k + 1));
    var g3 := EdgeStep(g2, left, reg.TopLeft(), reg.BottomLeft(), s(k + 2));
    var g4 := EdgeStep(g3, right, reg.TopRight(), reg.BottomRight(), s(k + 3));
    FrameCompose(g, g1, g2, [top], [bottom]);
    FrameCompose(g, g2, g3, [top, bottom], [left]);
    FrameCompose(g, g3, g4, [top, bottom, left], [right]);
    Run(g4, k + 4, [top, bottom, left, right])
  }

  /** The corners, edge midpoints and centre of a view lie in the view, and
      so in the buffer it is a view of. */
  lemma ViewCells(reg: Region, g: Grid)
    requires reg.NonEmpty() && reg.Within(g)
    ensures forall c :: reg.Contains(c) ==> g.Has(c)
    ensures reg.Contains(reg.TopLeft()) && reg.Contains(reg.TopRight())
    ensures reg.Contains(reg.BottomLeft()) && reg.Contains(reg.BottomRight())
    ensures reg.Contains(Top(reg)) && reg.Contains(Bottom(reg))
    ensures reg.Contains(Left(reg)) && reg.Contains(Right(reg))
    ensures reg.Contains(Centre(reg))
  {
  }

  /** The centre assignment: the mean of the four corners as they stand, plus
      `randfunc()` of one draw. */
  function CentreStep(reg: Region, g: Grid, d: Distribution, s: Stream, k: nat): (r: Run)
    requires g.Valid() && reg.NonEmpty() && reg.Within(g)
    ensures Frame(g, r.grid, r.writes)
    ensures r.writes == [Centre(reg)] && r.next == k + 1
    ensures reg.Contains(Centre(reg))
    ensures r.grid.Get(Centre(reg)) == CornerMean(reg, g) + Offset(d, s(k))
  {
    Run(g.Set(Centre(reg), CornerMean(reg, g) + Offset(d, s(k))), k + 1, [Centre(reg)])
  }

  /** The assignments a non-base call makes before it descends: `f1` and
      `f2` write the centre, `f3` the four edge midpoints and then the
      centre. */
  function Node(v: Variant, reg: Region, g: Grid, d: Distribution, s: Stream, k: nat): (r: Run)
    requires g.Valid() && reg.NonEmpty() && reg.Within(g)
    ensures Frame(g, r.grid, r.writes)
    ensures forall c :: c in r.writes ==> reg.Contains(c)
    ensures r.next == k + |r.writes|
    ensures |r.writes| > 0 && r.writes[|r.writes| - 1] == Centre(reg)
  {
    if v != F3 then CentreStep(reg, g, d, s, k)
    else
      var e := EdgeMidpoints(reg, g, s, k);
      var c := CentreStep(reg, e.grid, d, s, e.next);
      FrameCompose(g, e.grid, c.grid, e.writes, c.writes);
      Run(c.grid, c.next, e.writes + c.writes)
  }

  /** One call of the variant on the view `reg`.  It writes only inside its
      view, leaves every cell it does not list untouched, and takes exactly one
      draw per write. */
  function Divide(v: Variant, reg: Region, g: Grid, d: Distribution, s: Stream, k: nat): (r: Run)
    requires g.Valid() && reg.NonEmpty() && reg.Within(g)
    ensures Frame(g, r.grid, r.writes)
    ensures forall c :: c in r.writes ==> reg.Contains(c)
    ensures r.next == k + |r.writes|
    decreases reg.tx + reg.ty, 1, 0
  {
    if IsBase(v, reg) then Run(g, k, [])
    else
      var n := Node(v, reg, g, d, s, k);
      var rest := Visit(v, reg, 0, n.grid, d, s, n.next);
      FrameCompose(g, n.grid, rest.grid, n.writes, rest.writes);
      Run(rest.grid, rest.next, n.writes + rest.writes)
  }

  /** The loop `for cut in cuts[i:]` of a non-base call: each cut the variant
      descends into is processed on the buffer the previous ones left. */
  function Visit(v: Variant, reg: Region, i: nat, g: Grid, d: Distribution, s: Stream, k: nat): (r: Run)
    requires g.Valid() && reg.NonEmpty() && reg.Within(g) && !IsBase(v, reg) && i <= 4
    ensures Frame(g, r.grid, r.writes)
    ensures forall c :: c in r.writes ==> reg.Contains(c)
    ensures r.next == k + |r.writes|
    decreases reg.tx + reg.ty, 0, 4 - i
  {
    if i == 4 then Run(g, k, [])
    else
      var cut := Cuts(reg)[i];
      var here :=
        if Descends(v, reg, cut) then
          CutStep(reg, i);
          Divide(v, Child(reg, cut), g, d, s, k)
        else Run(g, k, []);
      var rest := Visit(v, reg, i + 1, here.grid, d, s, here.next);
      FrameCompose(g, here.grid, rest.grid, here.writes, rest.writes);
      Run(rest.grid, rest.next, here.writes + rest.writes)
  }

  /** What the early return leaves out: a view of `f1` or `f3` returns at once
      exactly when every one of its cells is a corner, and a view of `f2`
      exactly when it is a single cell. */
  lemma BaseIffCorners(v: Variant, reg: Region)
    requires reg.NonEmpty()
    ensures v != F2 ==> (IsBase(v, reg) <==> forall c :: reg.Contains(c) ==> reg.IsCorner(c))
    ensures v == F2 ==> (IsBase(v, reg) <==> reg.tx == 1 && reg.ty == 1)
  {
    if v != F2 && !IsBase(v, reg) {
      var c := if reg.tx >= 3 then reg.At(1, 0) else reg.At(0, 1);
      assert reg.Contains(c) && !reg.IsCorner(c);
    }
  }

  /** The smaller and the larger of two values. */
  function Lo(a: real, b: real): real { if a <= b then a else b }
  function Hi(a: real, b: real): real { if a <= b then b else a }

  /** The means a node assigns from lie within the range of the cells they
      average: the four-corner mean between the least and the greatest
      corner, a pair mean between its two cells. */
  lemma MeansInRange(reg: Region, g: Grid, a: Cell, b: Cell)
    requires g.Valid() && reg.NonEmpty() && reg.Within(g) && g.Has(a) && g.Has(b)
    ensures var tl, tr, bl, br := g.Get(reg.TopLeft()), g.Get(reg.TopRight()),
                                  g.Get(reg.BottomLeft()), g.Get(reg.BottomRight());
      Lo(Lo(tl, tr), Lo(bl, br)) <= CornerMean(reg, g) <= Hi(Hi(tl, tr), Hi(bl, br))
    ensures Lo(g.Get(a), g.Get(b)) <= PairMean(g, a, b) <= Hi(g.Get(a), g.Get(b))
  {
    ViewCells(reg, g);
  }

  /** A cut the variant does not descend into, or whose view is small
      enough to return at once, contributes nothing to the loop. */
  lemma IdleCut(v: Variant, reg: Region, i: nat, g: Grid, d: Distribution, s: Stream, k: nat)
    requires g.Valid() && reg.NonEmpty() && reg.Within(g) && !IsBase(v, reg) && i < 4
    requires !Descends(v, reg, Cuts(reg)[i]) || IsBase(v, Child(reg, Cuts(reg)[i]))
    ensures Visit(v, reg, i, g, d, s, k) == Visit(v, reg, i + 1, g, d, s, k)
  {
    var rest := Visit(v, reg, i + 1, g, d, s, k);
    assert [] + rest.writes == rest.writes;
  }

  /** Every cut of a 3 x 3 view is a 2 x 2 view, where `f1` and `f3` return
      at once. */
  lemma ThreeByThreeCuts(v: Variant, reg: Region, i: nat)
    requires v != F2 && reg.tx == 3 && reg.ty == 3 && i < 4
    ensures IsBase(v, Child(reg, Cuts(reg)[i]))
  {
  }

  /** On a 3 x 3 view the loop of `f1` or `f3` over the cuts does nothing. */
  lemma ThreeByThreeLoopIdle(v: Variant, reg: Region, g: Grid, d: Distribution, s: Stream, k: nat)
    requires g.Valid() && reg.Within(g) && v != F2 && reg.tx == 3 && reg.ty == 3
    ensures Visit(v, reg, 0, g, d, s, k) == Run(g, k, [])
  {
    ThreeByThreeCuts(v, reg, 0);
    ThreeByThreeCuts(v, reg, 1);
    ThreeByThreeCuts(v, reg, 2);
    ThreeByThreeCuts(v, reg, 3);
    IdleCut(v, reg, 3, g, d, s, k);
    IdleCut(v, reg, 2, g, d, s, k);
    IdleCut(v, reg, 1, g, d, s, k);
    IdleCut(v, reg, 0, g, d, s, k);
  }

  /** On a 3 x 3 view `f1` and `f3` make their node's assignments and no
      more. */
  lemma ThreeByThreeLeaf(v: Variant, reg: Region, g: Grid, d: Distribution, s: Stream, k: nat)
    requires g.Valid() && reg.Within(g) && v != F2 && reg.tx == 3 && reg.ty == 3
    ensures Divide(v, reg, g, d, s, k) == Node(v, reg, g, d, s, k)
  {
    var n := Node(v, reg, g, d, s, k);
    var rest := Visit(v, reg, 0, n.grid, d, s, n.next);
    assert Divide(v, reg, g, d, s, k) == Run(rest.grid, rest.next, n.writes + rest.writes);
    ThreeByThreeLoopIdle(v, reg, n.grid, d, s, n.next);
    assert n.writes + rest.writes == n.writes;
  }

  /** Every recursive call of a guarded variant receives a non-empty view
      that differs from its caller's, so `tx + ty` strictly decreases. */
  lemma GuardedCallsShrink(v: Variant, reg: Region, i: nat)
    requires v != F1 && reg.NonEmpty() && i < 4
    requires Descends(v, reg, Cuts(reg)[i])
    ensures Child(reg, Cuts(reg)[i]).NonEmpty()
    ensures Child(reg, Cuts(reg)[i]) != reg
    ensures Child(reg, Cuts(reg)[i]).tx + Child(reg, Cuts(reg)[i]).ty < reg.tx + reg.ty
  {
    CutGeometry(reg);
    AdmitIffProper(reg, i);
  }

  /** What a variant called on a whole buffer does: numpy raises an
      `IndexError` reading `img[0, 0]` of an empty buffer that is not small
      enough to return early. */
  datatype Outcome = Done(run: Run) | IndexError

  /** `f(img, randfunc)` on a whole buffer, drawing from `s` from its start. */
  function Subdivide(v: Variant, g: Grid, d: Distribution, s: Stream): (o: Outcome)
    requires g.Valid()
    ensures o.IndexError? <==> !IsBase(v, Whole(g)) && (g.rows == 0 || g.cols == 0)
    ensures o.Done? ==> Frame(g, o.run.grid, o.run.writes) && o.run.next == |o.run.writes|
    ensures o.Done? && IsBase(v, Whole(g)) ==> o.run.grid == g && o.run.writes == []
  {
    var whole := Whole(g);
    if IsBase(v, whole) then Done(Run(g, 0, []))
    else if !whole.NonEmpty() then IndexError
    else Done(Divide(v, whole, g, d, s, 0))
  }
}

=== FILE: third_try.dfy ===
/** Properties of the third try, `f3`: before descending, a call writes the
    four edge midpoints and then the centre, each from the buffer as the
    earlier writes left it.  On a view whose sides are both at least 3 these
    five cells are apart from each other and from the corners, so each value
    is the mean of the view's original corners plus its draw; on a view two
    columns wide the top and bottom midpoints are the right-hand corners
    themselves, and later writes read the overwritten corners. */
module ThirdTry {
  import opened Grids
  import opened Offsets
  import opened Quadrants
  import opened Subdivision

  /** A call of `f3` that does not return at once writes the four edge
      midpoints, top, bottom, left, right, then the centre, one draw each. */
  lemma NodeOrder(reg: Region, g: Grid, d: Distribution, s: Stream, k: nat)
    requires g.Valid() && reg.NonEmpty() && reg.Within(g)
    ensures Node(F3, reg, g, d, s, k).writes
         == [Top(reg), Bottom(reg), Left(reg), Right(reg), Centre(reg)]
    ensures Node(F3, reg, g, d, s, k).next == k + 5
  {
  }

  /** On a view whose sides are both at least 3 the five cells are apart
      from each other and none of them is a corner. */
  lemma CellsApart(reg: Region)
    requires reg.tx >= 3 && reg.ty >= 3
    ensures !reg.IsCorner(Top(reg)) && !reg.IsCorner(Bottom(reg))
    ensures !reg.IsCorner(Left(reg)) && !reg.IsCorner(Right(reg))
    ensures !reg.IsCorner(Centre(reg))
    ensures Top(reg) != Bottom(reg) && Top(reg) != Left(reg) && Top(reg) != Right(reg)
    ensures Bottom(reg) != Left(reg) && Bottom(reg) != Right(reg) && Left(reg) != Right(reg)
    ensures Centre(reg) !in [Top(reg), Bottom(reg), Left(reg), Right(reg)]
  {
  }

  /** With both sides at least 3, each edge midpoint becomes the mean of the
      two original corners bounding its edge plus its raw draw, and the
      corners are left as they were. */
  lemma EdgeValues(reg: Region, g: Grid, s: Stream, k: nat)
    requires g.Valid() && reg.Within(g) && reg.tx >= 3 && reg.ty >= 3
    ensures var e := EdgeMidpoints(reg, g, s, k);
      && e.grid.Get(Top(reg)) == PairMean(g, reg.TopLeft(), reg.TopRight()) + s(k)
      && e.grid.Get(Bottom(reg)) == PairMean(g, reg.BottomLeft(), reg.BottomRight()) + s(k + 1)
      && e.grid.Get(Left(reg)) == PairMean(g, reg.TopLeft(), reg.BottomLeft()) + s(k + 2)
      && e.grid.Get(Right(reg)) == PairMean(g, reg.TopRight(), reg.BottomRight()) + s(k + 3)
      && e.grid.Get(reg.TopLeft()) == g.Get(reg.TopLeft())
      && e.grid.Get(reg.TopRight()) == g.Get(reg.TopRight())
      && e.grid.Get(reg.BottomLeft()) == g.Get(reg.BottomLeft())
      && e.grid.Get(reg.BottomRight()) == g.Get(reg.BottomRight())
      && CornerMean(reg, e.grid) == CornerMean(reg, g)
  {
    CellsApart(reg);
    ViewCells(reg, g);
    var g1 := EdgeStep(g, Top(reg), reg.TopLeft(), reg.TopRight(), s(k));
    var g2 := EdgeStep(g1, Bottom(reg), reg.BottomLeft(), reg.BottomRight(), s(k + 1));
    var g3 := EdgeStep(g2, Left(reg), reg.TopLeft(), reg.BottomLeft(), s(k + 2));
    var g4 := EdgeStep(g3, Right(reg), reg.TopRight(), reg.BottomRight(), s(k + 3));
    assert EdgeMidpoints(reg, g, s, k).grid == g4;
  }

  /** With both sides at least 3, every value a call of `f3` writes before
      descending is computed from the original corners alone. */
  lemma NodeValues(reg: Region, g: Grid, d: Distribution, s: Stream, k: nat)
    requires g.Valid() && reg.Within(g) && reg.tx >= 3 && reg.ty >= 3
    ensures var n := Node(F3, reg, g, d, s, k);
      && n.grid.Get(Top(reg)) == PairMean(g, reg.TopLeft(), reg.TopRight()) + s(k)
      && n.grid.Get(Bottom(reg)) == PairMean(g, reg.BottomLeft(), reg.BottomRight()) + s(k + 1)
      && n.grid.Get(Left(reg)) == PairMean(g, reg.TopLeft(), reg.BottomLeft()) + s(k + 2)
      && n.grid.Get(Right(reg)) == PairMean(g, reg.TopRight(), reg.BottomRight()) + s(k + 3)
      && n.grid.Get(Centre(reg)) == CornerMean(reg, g) + Offset(d, s(k + 4))
  {
    CellsApart(reg);
    EdgeValues(reg, g, s, k);
  }

  /** On a view two columns wide and at least three rows high, the top and
      bottom midpoints are the right-hand corners and the right midpoint is
      the centre. */
  lemma NarrowCells(reg: Region)
    requires reg.tx >= 3 && reg.ty == 2
    ensures Top(reg) == reg.TopRight() && Bottom(reg) == reg.BottomRight()
    ensures Right(reg) == Centre(reg)
    ensures Left(reg) != Centre(reg) && !reg.IsCorner(Left(reg)) && !reg.IsCorner(Centre(reg))
  {
  }

  /** On such a view `f3` overwrites the top-right corner with the mean of the
      top row and the bottom-right corner with the mean of the bottom row, and
      the centre reads the two right-hand corners as the edge
      writes left them, not as they were. */
  lemma NarrowNode(reg: Region, g: Grid, d: Distribution, s: Stream, k: nat)
    requires g.Valid() && reg.Within(g) && reg.tx >= 3 && reg.ty == 2
    ensures var n := Node(F3, reg, g, d, s, k);
      && n.grid.Get(reg.TopRight()) == PairMean(g, reg.TopLeft(), reg.TopRight()) + s(k)
      && n.grid.Get(reg.BottomRight()) == PairMean(g, reg.BottomLeft(), reg.BottomRight()) + s(k + 1)
      && n.grid.Get(Centre(reg))
         == (g.Get(reg.TopLeft())
             + (PairMean(g, reg.TopLeft(), reg.TopRight()) + s(k))
             + g.Get(reg.BottomLeft())
             + (PairMean(g, reg.BottomLeft(), reg.BottomRight()) + s(k + 1))) / 4.0
            + Offset(d, s(k + 4))
  {
    NarrowCells(reg);
    ViewCells(reg, g);
    var g1 := EdgeStep(g, Top(reg), reg.TopLeft(), reg.TopRight(), s(k));
    var g2 := EdgeStep(g1, Bottom(reg), reg.BottomLeft(), reg.BottomRight(), s(k + 1));
    var g3 := EdgeStep(g2, Left(reg), reg.TopLeft(), reg.BottomLeft(), s(k + 2));
    var g4 := EdgeStep(g3, Right(reg), reg.TopRight(), reg.BottomRight(), s(k + 3));
    assert EdgeMidpoints(reg, g, s, k).grid == g4;
    assert g4.Get(reg.TopLeft()) == g.Get(reg.TopLeft());
    assert g4.Get(reg.BottomLeft()) == g.Get(reg.BottomLeft());
  }

  /** On a 3 x 3 view the edge midpoints and the centre are the middle cells
      of the four sides and the middle cell. */
  lemma ThreeByThreeCells(reg: Region)
    requires reg.tx == 3 && reg.ty == 3
    ensures Top(reg) == reg.At(0, 1) && Bottom(reg) == reg.At(2, 1)
    ensures Left(reg) == reg.At(1, 0) && Right(reg) == reg.At(1, 2)
    ensures Centre(reg) == reg.At(1, 1)
  {
  }

  /** On a view with zero corners and both sides at least 3, each edge
      midpoint becomes its raw draw and the centre its offset. */
  lemma ZeroCorners(reg: Region, g: Grid, d: Distribution, s: Stream, k: nat)
    requires g.Valid() && reg.Within(g) && reg.tx >= 3 && reg.ty >= 3
    requires g.Get(reg.TopLeft()) == 0.0 && g.Get(reg.TopRight()) == 0.0
    requires g.Get(reg.BottomLeft()) == 0.0 && g.Get(reg.BottomRight()) == 0.0
    ensures var n := Node(F3, reg, g, d, s, k);
      && n.grid.Get(Top(reg)) == s(k) && n.grid.Get(Bottom(reg)) == s(k + 1)
      && n.grid.Get(Left(reg)) == s(k + 2) && n.grid.Get(Right(reg)) == s(k + 3)
      && n.grid.Get(Centre(reg)) == Offset(d, s(k + 4))
  {
    NodeValues(reg, g, d, s, k);
    assert CornerMean(reg, g) == 0.0;
    assert PairMean(g, reg.TopLeft(), reg.TopRight()) == 0.0;
    assert PairMean(g, reg.BottomLeft(), reg.BottomRight()) == 0.0;
    assert PairMean(g, reg.TopLeft(), reg.BottomLeft()) == 0.0;
    assert PairMean(g, reg.TopRight(), reg.BottomRight()) == 0.0;
  }

  /** On a 3 x 3 view with zero corners, `f3` makes its five assignments and
      no more: each edge midpoint ends equal to its raw draw and the centre
      to its offset. */
  lemma ThreeByThreeZero(reg: Region, g: Grid, d: Distribution, s: Stream, k: nat)
    requires g.Valid() && reg.Within(g) && reg.tx == 3 && reg.ty == 3
    requires g.Get(reg.TopLeft()) == 0.0 && g.Get(reg.TopRight()) == 0.0
    requires g.Get(reg.BottomLeft()) == 0.0 && g.Get(reg.BottomRight()) == 0.0
    ensures var r := Divide(F3, reg, g, d, s, k);
      && r.writes == [Top(reg), Bottom(reg), Left(reg), Right(reg), Centre(reg)]
      && r.grid.Get(Top(reg)) == s(k) && r.grid.Get(Bottom(reg)) == s(k + 1)
      && r.grid.Get(Left(reg)) == s(k + 2) && r.grid.Get(Right(reg)) == s(k + 3)
      && r.grid.Get(Centre(reg)) == Offset(d, s(k + 4))
  {
    ThreeByThreeLeaf(F3, reg, g, d, s, k);
    NodeOrder(reg, g, d, s, k);
    ZeroCorners(reg, g, d, s, k);
  }
}
